=== FILE: README.md ===
# Crypto analysis Telegram bot — a Dafny model of its dialog and decision logic

The bot (`bot.py`) offers a three-button main menu:

- a top-five market report;
- a one-coin lookup, which sends a textual analysis and then a seven-day price chart;
- a currency conversion dialog that asks for three inputs in turn.

This project models, as pure Dafny functions, the parts that decide what the bot does:

- the dialog state machine. It is the `ConversationHandler` with its entry point, four state handlers, the `/cancel` fallback, and the separately registered `/start` command;
- the five-band classifier of percent changes (`analyze_change` and the same chain in the top-five loop);
- the 24-hour commentary;
- the three price-precision tiers;
- the one-coin and top-five reports, down to which band, commentary and precision each line gets;
- the one-hour listing cache (`load_cache`, `save_cache`) and the symbol-to-id lookup (`get_coingecko_id`);
- the chart pipeline's decision to request a price series and to produce an image.

Everything the bot learns from outside is a parameter. A turn takes an `Oracle` value holding:

- the clock;
- the top-five listings response;
- the quote of the requested symbol;
- the coin listing;
- whether the cache write succeeded;
- the price series;
- what `float()` makes of the typed text;
- the converted price.

A turn's visible behaviour is an ordered list of abstract `Effect`s: replies by kind, external calls, and the main menu.

Modules, one file each:

- `Wrappers`: `Option`;
- `Text`: `str.strip` and `str.upper`;
- `Analysis`: bands, commentary, precision, and both reports;
- `Resolver`: the cache and the lookup;
- `Conversation`: handlers, `Step`, `Run`, and the dialog properties.

Details of the code the model keeps:

- A cached listing is still used when it is exactly 3600 seconds old. The code treats it as expired only when `now - timestamp > 3600`.
- The per-chat `user_data` fields are never cleared. They survive the end of a conversation.
- `/cancel` sent while no conversation is active is not handled at all. A `ConversationHandler` consults its fallbacks only inside a conversation, and the entry point's filter excludes commands.
- Pressing the top-five button runs the report but starts no conversation, because the entry point returns `None`.

## Model

| member | source | states |
|---|---|---|
| Text.TrimStartSpec | bot.py:245 | the start of `strip()` drops only whitespace, keeps a suffix of the text, and leaves no leading whitespace |
| Text.TrimEndSpec | bot.py:245 | the end of `strip()` drops only whitespace, keeps a prefix of the text, and leaves no trailing whitespace |
| Text.TrimSpec | bot.py:231 | `strip()` returns an infix of the text with whitespace only outside it and none at either end of it |
| Text.TrimIdempotent | bot.py:231 | stripping twice is stripping once |
| Text.TrimUnpadded | bot.py:232 | a text with no whitespace at either end is unchanged by `strip()`, so a button label is recognised as sent |
| Text.UpperSpec | bot.py:245 | `upper()` keeps the length and maps every character independently, ASCII lower-case letters to upper-case |
| Text.UpperIsCanonical | bot.py:66 | after `upper()` no lower-case letter remains, and upper-casing again changes nothing |
| Text.UpperKeepsOthers | bot.py:263 | a text without lower-case letters is unchanged by `upper()` |
| Analysis.Classify | bot.py:123-133 | the band chosen for a change is the one whose interval contains it, and no other band contains it |
| Analysis.BandsPartition | bot.py:123-133 | every change lies in exactly one band, in both directions: inside the band iff the classifier names it |
| Analysis.ClassifyMonotone | bot.py:124-133 | a larger change never gets a lower band |
| Analysis.ClassifyBoundaries | bot.py:124-130 | 5 and -5 belong to the moderate bands, 1 and -1 to stability; just past 5 or -5 is a rapid band |
| Analysis.CommentaryFor | bot.py:141-152 | each of the four commentaries is chosen exactly on its interval of the 24-hour change |
| Analysis.CommentaryFollowsBand | bot.py:141-152 | the commentary's own if-chain agrees with the classifier band of the same value; the moderate commentary covers exactly the two moderate bands |
| Analysis.PriceDecimals | bot.py:113-118 | 2 decimals above 100, 5 from 1 to 100 inclusive, 6 below 1, each iff |
| Analysis.PriceDecimalsTiers | bot.py:173-178 | the tiers cover every price, and a cheaper coin never gets fewer decimals |
| Analysis.AnalyzeQuote | bot.py:100-155 | a report exists iff the quote exists and has a price; it shows the quote's price and its three changes (0 when missing); its bands, commentary and precision agree with those values |
| Analysis.TopRowsOf | bot.py:168-190 | one row per listing entry in order, each row showing its entry's fields with the band and tier of the raw values; any incomplete entry discards the whole result |
| Analysis.TopAnalysis | bot.py:158-192 | the fetch-error message iff a non-200 status; rows iff the data key is present and every entry is complete; the processing-error message otherwise |
| Resolver.LoadCache | bot.py:35-46 | the stored listing is returned iff the file holds a listing whose timestamp (0 when absent) is at most 3600 seconds old |
| Resolver.CacheBoundary | bot.py:41-43 | a listing saved exactly an hour ago is used, an older one is not, and a missing timestamp counts as 0 |
| Resolver.Lookup | bot.py:65-68 | no id iff no coin's symbol matches case-insensitively; otherwise the id of the first match |
| Resolver.LookupIsFirstMatch | bot.py:65-67 | the lookup is determined by the first matching position |
| Resolver.LookupCaseInsensitive | bot.py:66 | upper-casing the query does not change the result |
| Resolver.Resolve | bot.py:56-68 | the listing is requested iff the cache load misses; a hit searches the cached list and leaves the file; a failed request gives no id; a fetched list is searched and saved, stamped with the current time, when the write succeeds |
| Resolver.ResolveWithinHourUsesCache | bot.py:56-64 | within an hour of a successful fetch-and-save, a second resolution makes no request and searches the saved list; later it requests again |
| Resolver.ResolveCaseInsensitive | bot.py:56-68 | resolving a symbol and its upper-cased form gives the same id and the same cache |
| Conversation.PriceChart | bot.py:71-83 | the listing is requested first, and only on a cache miss; the series is then requested for the resolved id iff a non-empty id was found; an image results iff the series is also non-empty |
| Conversation.MenuChoice | bot.py:230-241 | each button moves to its state with its prompt; the top-five button reports and stays idle; any other text is ignored; the cache and stored fields are untouched |
| Conversation.ConvertFromInput | bot.py:244-248 | the stripped, upper-cased source symbol is stored and the amount is asked for |
| Conversation.ConvertAmountInput | bot.py:251-259 | a number is stored and the target is asked for; anything else re-prompts and stays |
| Conversation.ConvertToInput | bot.py:262-273 | the target is stored first; with both stored fields present, exactly one conversion call, then the result or the failure note, the menu, and the end; otherwise nothing is sent and the state stays |
| Conversation.CoinInput | bot.py:276-289 | the analysis request comes first and the menu last; without a report only the not-found note, with one the report and then the chart attempt; the conversation ends |
| Conversation.CoinInputChart | bot.py:279-285 | with a report, the chart pipeline's own requests sit between the chart call and the outcome, and the attempt ends in a photo of exactly the series the pipeline produced, or else in the chart-failed note, never both |
| Conversation.PriceChartRequests | bot.py:56-79 | the chart pipeline requests the listing iff the cache load misses, and the series for exactly the resolved non-empty id |
| Conversation.CoinStepRequests | bot.py:276-281 | a lookup turn requests the listing iff it found a report and the cache missed, and the series iff it found a report and a non-empty id resolved |
| Conversation.LookupWithinHourNoListing | bot.py:35-43 | a lookup turn while a listing saved within the hour is stored makes no listing request |
| Conversation.Step | bot.py:301-313 | `/start`, registered before the dialog, answers with the help text and the menu and leaves the session and the cache; `/cancel` always leaves the session idle with the cache unchanged |
| Conversation.StartKeepsSession | bot.py:225-227 | a `/start` in the middle of the convert dialog does not end it: an amount typed after a `/start` in the amount state is still taken as the amount |
| Conversation.StepPreservesWf | bot.py:301-310 | every turn keeps the stored fields that the later states read present |
| Conversation.RunPreservesWf | bot.py:301-310 | from a well-formed session, such as the initial one, any sequence of turns stays well formed |
| Conversation.ConvertToStepConverts | bot.py:262-273 | a reachable target turn makes one conversion call with the stored symbol and amount and the typed target, then none, and ends with the menu |
| Conversation.OtherStepsDoNotConvert | bot.py:301-312 | no other turn makes a conversion call |
| Conversation.CoinInputMakesNoConversion | bot.py:276-289 | the lookup turn makes no conversion call |
| Conversation.StepConvertCalls | bot.py:301-312 | a reachable turn makes exactly one conversion call if it answers the target state, and none otherwise |
| Conversation.MenuStep | bot.py:230-241 | a turn with no active conversation goes to the menu: each button selects its state and prompt, the top-five button reports and stays idle, other text gets no reply; the cache and stored fields are untouched |
| Conversation.SourceStep | bot.py:244-248 | a turn in the source state replaces any stored source symbol with the stripped, upper-cased text and asks for the amount, touching nothing else |
| Conversation.AmountStep | bot.py:251-259 | the amount turn converts nothing; a non-number re-prompts and leaves the session as it was; a number is stored, the source kept, and the target asked for |
| Conversation.CoinStepChartOnlyAfterAnalysis | bot.py:276-289 | the chart is attempted iff the analysis was found; without one, the not-found note is the only reply; with one but no series, the chart-failed note and no photo; the turn ends idle with the menu |
| Conversation.CancelEnds | bot.py:292-309 | `/cancel` inside a conversation ends it with a reply and the menu; outside one it does nothing; the stored fields and the cache stay |
| Conversation.CacheChangesOnlyInLookup | bot.py:301-312 | only a turn answering the lookup state can change the cache file |
| Conversation.ConvertScenario | bot.py:239-273 | the full convert dialog with one non-numeric entry has exactly these effects: the four prompts with one re-prompt among them, then one conversion call with the normalised symbols and the parsed amount, its result and the menu; the cache is untouched and the dialog ends idle |
| Conversation.ConvertScenarioExample | bot.py:239-273 | the button, then "btc", "abc", "10", "USDT", converts 10 BTC to USDT once |
| Conversation.ConvertLabelStripped | bot.py:219 | the convert button's label is already stripped, so pressing it selects the convert branch |

## Left out

- HTTP requests, JSON decoding and the API keys: their results are oracle values. The top-five response, the quote, the listing, the series and the converted price are each `Option`s or small datatypes.
- Message texts, HTML markup and number formatting (`:.2f`, `:.5f`, `:.6f`, `round(..., 2)`): a report records the chosen band, commentary and number of decimals, not digits. The quote's change values are taken as already rounded.
- Floating point: prices and changes are Dafny reals, so `nan` and `inf` (which `float()` accepts) are not modelled.
- `float()`'s grammar: the oracle's `parsed` field says whether the stripped text parsed and to what.
- Unicode in `strip()` and `upper()`: only the ASCII whitespace and the 26 ASCII letters are modelled. Non-ASCII whitespace and case mappings are not.
- Drawing the chart (matplotlib) and the photo upload: the model records which series would be plotted.
- The clock: `now` is one value per turn, so the timestamp `save_cache` writes equals the time the cache was checked.
- Keyboards (`ReplyKeyboardMarkup`, `ReplyKeyboardRemove`): `ShowMenu` stands for `show_main_menu`.
- Commands other than `/start` and `/cancel`, and non-text messages: no handler matches them, so they are not inputs of the model.
- Concurrency, polling and per-user conversation keys: one chat is modelled.
- Raised requests: `requests.get` and `response.json()` are called outside every `try`, so a transport or JSON decoding error raises out of the handler. The turn is then aborted with the dialog state kept, and its remaining replies and the menu are not sent. In the model every turn completes; only the `.upper()` raise in `handle_convert_to` is modelled.
- Analysis.AnalyzeQuote: a `null` change value makes `round` raise outside the `KeyError` handler, so the whole turn fails. The model has only missing keys, which count as 0.
- Analysis.RawTopEntry: a `null` name or symbol is printed as `None` by the source rather than failing. The model treats a missing name or symbol as an incomplete entry.
- Conversation.ConvertToInput: a missing source symbol makes `.upper()` raise, and the model treats a missing amount the same way. The source would instead send the request without the amount. Both cases are unreachable from the initial session (`RunPreservesWf`).

=== FILE: analysis.dfy ===
/** The pure decision logic of the price reports: the five-band percent-change
    classifier, the four-way 24-hour commentary, the three price-precision
    tiers, and the two reports built from them (one coin, and the top five).
    Rendering of digits and the wording of the messages are not modelled: a
    report records the chosen band, commentary and number of decimals. */
module Analysis {
  import opened Wrappers
  import Text

  // ---------------------------------------------------------------------------
  // Percent-change classification
  // ---------------------------------------------------------------------------

  datatype Band = RapidIncrease | StableIncrease | Stability | StableDecrease | RapidDecrease

  /** The interval of percent changes each band stands for, written as closed
      and open intervals rather than as the classifier's if-chain. */
  ghost predicate InBand(b: Band, v: real)
  {
    match b
    case RapidIncrease => v > 5.0
    case StableIncrease => 1.0 < v <= 5.0
    case Stability => -1.0 <= v <= 1.0
    case StableDecrease => -5.0 <= v < -1.0
    case RapidDecrease => v < -5.0
  }

  /** The position of a band on the number line, lowest first. */
  function Rank(b: Band): nat
  {
    match b
    case RapidDecrease => 0
    case StableDecrease => 1
    case Stability => 2
    case StableIncrease => 3
    case RapidIncrease => 4
  }

  /** `analyze_change`, and the same chain inside the top-five loop: the band
      the value falls in, and no other band contains it. Both reports call
      this one function, so equal values get equal bands in either (the
      one-coin report classifies the rounded change, the top five the raw one). */
  function Classify(v: real): (b: Band)
    ensures InBand(b, v)
    ensures forall b' :: InBand(b', v) ==> b' == b
  {
    if v > 5.0 then RapidIncrease
    else if v > 1.0 then StableIncrease
    else if -1.0 <= v <= 1.0 then Stability
    else if v < -5.0 then RapidDecrease
    else StableDecrease
  }

  /** Every real lies in exactly one band, and the classifier names it. */
  lemma BandsPartition(v: real, b: Band)
    ensures InBand(b, v) <==> Classify(v) == b
  {
  }

  /** A larger change never lands in a lower band. */
  lemma ClassifyMonotone(v: real, w: real)
    requires v <= w
    ensures Rank(Classify(v)) <= Rank(Classify(w))
  {
  }

  /** The boundaries: 5 and -5 belong to the moderate bands, 1 and -1 to stability. */
  lemma ClassifyBoundaries()
    ensures Classify(5.0) == StableIncrease && Classify(5.01) == RapidIncrease
    ensures Classify(-5.0) == StableDecrease && Classify(-5.01) == RapidDecrease
    ensures Classify(1.0) == Stability && Classify(-1.0) == Stability
    ensures Classify(0.0) == Stability
  {
  }

  // ---------------------------------------------------------------------------
  // 24-hour commentary
  // ---------------------------------------------------------------------------

  /** The commentary/recommendation pair closing a one-coin report. */
  datatype Commentary = StrongGrowth | NoticeableFall | RelativeStability | ModerateDynamics

  /** The commentary that belongs to each classifier band: the two moderate
      bands share one message. */
  function CommentaryOfBand(b: Band): Commentary
  {
    match b
    case RapidIncrease => StrongGrowth
    case RapidDecrease => NoticeableFall
    case Stability => RelativeStability
    case StableIncrease => ModerateDynamics
    case StableDecrease => ModerateDynamics
  }

  /** The commentary chosen from the 24-hour change. */
  function CommentaryFor(c: real): (m: Commentary)
    ensures m == StrongGrowth <==> c > 5.0
    ensures m == NoticeableFall <==> c < -5.0
    ensures m == RelativeStability <==> -1.0 <= c <= 1.0
    ensures m == ModerateDynamics <==> (1.0 < c <= 5.0 || -5.0 <= c < -1.0)
  {
    if c > 5.0 then StrongGrowth
    else if c < -5.0 then NoticeableFall
    else if -1.0 <= c <= 1.0 then RelativeStability
    else ModerateDynamics
  }

  /** The commentary is a function of the classifier band: its own if-chain,
      which tests the bands in a different order, agrees with the classifier,
      and the moderate message covers exactly the two moderate bands. */
  lemma CommentaryFollowsBand(c: real)
    ensures CommentaryFor(c) == CommentaryOfBand(Classify(c))
    ensures CommentaryFor(c) == ModerateDynamics <==>
              (Classify(c) == StableIncrease || Classify(c) == StableDecrease)
  {
  }

  // ---------------------------------------------------------------------------
  // Price precision
  // ---------------------------------------------------------------------------

  /** Number of decimals the price is printed with. */
  function PriceDecimals(p: real): (d: nat)
    ensures d == 2 <==> p > 100.0
    ensures d == 5 <==> 1.0 <= p <= 100.0
    ensures d == 6 <==> p < 1.0
  {
    if p > 100.0 then 2
    else if 1.0 <= p <= 100.0 then 5
    else 6
  }

  /** The three tiers cover every price, and cheaper coins never get fewer decimals. */
  lemma PriceDecimalsTiers(p: real, q: real)
    requires p <= q
    ensures PriceDecimals(p) in {2, 5, 6}
    ensures PriceDecimals(q) <= PriceDecimals(p)
  {
  }

  // ---------------------------------------------------------------------------
  // One-coin report (`get_crypto_analysis`)
  // ---------------------------------------------------------------------------

  /** The USD quote of one symbol. `None` in a change field is a missing key;
      the change values are the ones after `round(..., 2)`. */
  datatype Quote = Quote(price: Option<real>, change1h: Option<real>,
                         change24h: Option<real>, change7d: Option<real>)

  datatype CoinReport = CoinReport(
    symbol: string,
    price: real, decimals: nat,
    change1h: real, band1h: Band,
    change24h: real, band24h: Band,
    change7d: real, band7d: Band,
    commentary: Commentary)

  /** A report is consistent when every band and the commentary agree with the
      values shown next to them. */
  ghost predicate ReportConsistent(r: CoinReport)
  {
    && InBand(r.band1h, r.change1h)
    && InBand(r.band24h, r.change24h)
    && InBand(r.band7d, r.change7d)
    && r.commentary == CommentaryOfBand(r.band24h)
    && (r.decimals == 2 <==> r.price > 100.0)
    && (r.decimals == 5 <==> 1.0 <= r.price <= 100.0)
    && (r.decimals == 6 <==> r.price < 1.0)
  }

  /** The report for a symbol, given the quote the quotes endpoint returned
      (`None` for a non-200 status or a missing `data/SYMBOL/quote/USD` path).
      No report without a price; a missing change counts as 0. */
  function AnalyzeQuote(symbol: string, q: Option<Quote>): (r: Option<CoinReport>)
    ensures r.Some? <==> q.Some? && q.value.price.Some?
    ensures r.Some? ==> ReportConsistent(r.value)
    ensures r.Some? ==> r.value.symbol == Text.Upper(symbol) && r.value.price == q.value.price.value
    ensures r.Some? ==> && r.value.change1h == q.value.change1h.GetOr(0.0)
                        && r.value.change24h == q.value.change24h.GetOr(0.0)
                        && r.value.change7d == q.value.change7d.GetOr(0.0)
  {
    match q
    case None => None
    case Some(quote) =>
      match quote.price
      case None => None
      case Some(p) =>
        var c1 := quote.change1h.GetOr(0.0);
        var c24 := quote.change24h.GetOr(0.0);
        var c7 := quote.change7d.GetOr(0.0);
        CommentaryFollowsBand(c24);
        Some(CoinReport(Text.Upper(symbol), p, PriceDecimals(p),
                        c1, Classify(c1), c24, Classify(c24), c7, Classify(c7),
                        CommentaryFor(c24)))
  }

  // ---------------------------------------------------------------------------
  // Top-five report (`get_top5_analysis`)
  // ---------------------------------------------------------------------------

  /** One entry of the listings response. `None` marks a missing key; for the
      price and the change it also marks a null, which fails the comparison. */
  datatype RawTopEntry = RawTopEntry(name: Option<string>, symbol: Option<string>,
                                     price: Option<real>, change24h: Option<real>)

  /** The listings response: a non-200 status, or a body whose `data` key may be missing. */
  datatype TopResponse = TopStatusError | TopBody(data: Option<seq<RawTopEntry>>)

  datatype TopRow = TopRow(name: string, symbol: string, price: real, decimals: nat,
                           change24h: real, band: Band)

  /** The two error messages, or the rows of a successful report. */
  datatype TopOutcome = TopRows(rows: seq<TopRow>) | TopFetchFailed | TopProcessingFailed

  predicate Complete(e: RawTopEntry)
  {
    e.name.Some? && e.symbol.Some? && e.price.Some? && e.change24h.Some?
  }

  /** A row shows its entry's own fields, and its tier and band agree with
      the raw (unrounded) price and change. */
  ghost predicate RowOf(row: TopRow, e: RawTopEntry)
  {
    && Complete(e)
    && row.name == e.name.value && row.symbol == e.symbol.value
    && row.price == e.price.value && row.change24h == e.change24h.value
    && row.decimals == PriceDecimals(row.price)
    && InBand(row.band, row.change24h)
  }

  /** The loop over `data['data']`: one row per entry, in order; a single
      incomplete entry raises and the partial result is discarded. */
  function TopRowsOf(entries: seq<RawTopEntry>): (r: Option<seq<TopRow>>)
    ensures r.Some? <==> forall i :: 0 <= i < |entries| ==> Complete(entries[i])
    ensures r.Some? ==> |r.value| == |entries|
    ensures r.Some? ==> forall i :: 0 <= i < |entries| ==> RowOf(r.value[i], entries[i])
  {
    if |entries| == 0 then Some([])
    else
      var e := entries[0];
      if !Complete(e) then None
      else
        match TopRowsOf(entries[1..])
        case None => None
        case Some(rest) =>
          var row := TopRow(e.name.value, e.symbol.value, e.price.value,
                            PriceDecimals(e.price.value), e.change24h.value,
                            Classify(e.change24h.value));
          assert forall i :: 1 <= i < |entries| ==> entries[i] == entries[1..][i - 1];
          Some([row] + rest)
  }

  /** The whole top-five report. */
  function TopAnalysis(resp: TopResponse): (r: TopOutcome)
    ensures r == TopFetchFailed <==> resp.TopStatusError?
    ensures r.TopRows? <==>
              (resp.TopBody? && resp.data.Some?
               && forall i :: 0 <= i < |resp.data.value| ==> Complete(resp.data.value[i]))
    ensures r.TopRows? ==> |r.rows| == |resp.data.value|
                           && forall i :: 0 <= i < |r.rows| ==> RowOf(r.rows[i], resp.data.value[i])
  {
    match resp
    case TopStatusError => TopFetchFailed
    case TopBody(None) => TopProcessingFailed
    case TopBody(Some(entries)) =>
      match TopRowsOf(entries)
      case None => TopProcessingFailed
      case Some(rows) => TopRows(rows)
  }
}

=== FILE: conversation.dfy ===
/** The dialog of one chat: the `ConversationHandler` built in `main`, its
    entry point `handle_menu_choice`, the four state handlers, the `/cancel`
    fallback and the separately registered `/start` command.

    A turn is a pure function `Step(session, cache, input, oracle)`. The
    session holds the dialog state and the per-chat `user_data` fields; the
    cache is the shared listing cache file; the oracle supplies everything the
    turn learns from outside (the clock, the HTTP responses, the result of
    `float()` on the typed text, whether the cache write succeeded). The turn's
    observable behaviour is a list of abstract effects: replies, external calls
    and the main menu. */
module Conversation {
  import opened Wrappers
  import Text
  import opened Analysis
  import opened Resolver

  // ---------------------------------------------------------------------------
  // Session, input, oracle, effects
  // ---------------------------------------------------------------------------

  /** `Idle` is "no conversation" (before the entry point and after END); the
      other four are `CHOOSE_COIN, CONVERT_FROM, CONVERT_AMOUNT, CONVERT_TO`. */
  datatype DialogState = Idle | ChooseCoin | ConvertFrom | ConvertAmount | ConvertTo

  /** The dialog state and the `user_data` fields the handlers write. The
      fields are never cleared: they survive the end of a conversation. */
  datatype Session = Session(state: DialogState, fromSymbol: Option<string>,
                             amount: Option<real>, toSymbol: Option<string>)

  const InitialSession := Session(Idle, None, None, None)

  /** A non-command text message, `/cancel`, or `/start`. */
  datatype Input = Typed(text: string) | Cancel | Start

  /** One 7-day price sample as returned by the market-chart endpoint. */
  datatype PricePoint = PricePoint(timestampMs: real, price: real)

  /** Everything a turn learns from outside the model. `parsed` is what
      `float()` makes of the stripped text (`None` for a `ValueError`);
      `series` is the `prices` list of the market-chart response (`None` for
      a non-200 status or a missing key); `converted` is the converted price
      (`None` for a non-200 status or a missing field). */
  datatype Oracle = Oracle(
    now: real,
    top: TopResponse,
    quote: Option<Quote>,
    listing: Option<seq<Coin>>,
    saveOk: bool,
    series: Option<seq<PricePoint>>,
    parsed: Option<real>,
    converted: Option<real>)

  /** The texts the bot sends, by kind. */
  datatype Message =
    | Help
    | TopReport(outcome: TopOutcome)
    | PromptCoin
    | PromptFrom
    | PromptAmount
    | PromptTo
    | NotNumeric
    | Converted(amount: real, from: string, value: real, to: string)
    | ConversionFailed
    | AnalysisReport(report: CoinReport)
    | ChartFailed
    | CoinNotFound
    | Cancelled

  /** What a turn does, in order. */
  datatype Effect =
    | Reply(msg: Message)
    | ShowMenu
    | TopCall
    | AnalysisCall(symbol: string)
    | ChartCall(symbol: string)
    | ListingFetch
    | SeriesFetch(id: string)
    | Photo(symbol: string, series: seq<PricePoint>)
    | ConvertCall(from: string, to: string, amount: real)

  datatype Outcome = Outcome(session: Session, cache: CacheFile, effects: seq<Effect>)

  /** The three menu buttons. */
  const TopLabel: string := "\U{1F4CA} Топ-5 криптовалют"
  const LookupLabel: string := "\U{1F50D} Переглянути криптовалюту"
  const ConvertLabel: string := "\U{1F4B1} Конвертація криптовалют"

  // ---------------------------------------------------------------------------
  // Chart pipeline (`generate_price_chart`)
  // ---------------------------------------------------------------------------

  datatype ChartOutcome = ChartOutcome(image: Option<seq<PricePoint>>, cache: CacheFile,
                                       effects: seq<Effect>)

  /** Resolve the id (possibly refreshing the cache), then fetch the 7-day
      series. No id (or an empty one) means no series request; an empty or
      missing series means no chart. */
  function PriceChart(symbol: string, cache: CacheFile, o: Oracle): (r: ChartOutcome)
    ensures var res := Resolve(symbol, cache, o.now, o.listing, o.saveOk);
            && r.cache == res.cache
            && r.effects == (if res.fetched then [ListingFetch] else [])
                            + (if res.id.Some? && res.id.value != "" then [SeriesFetch(res.id.value)] else [])
            && (r.image.Some? <==> res.id.Some? && res.id.value != "" && o.series.Some? && |o.series.value| > 0)
            && (r.image.Some? ==> r.image == o.series)
    ensures forall e :: e in r.effects ==> e.ListingFetch? || e.SeriesFetch?
  {
    var res := Resolve(symbol, cache, o.now, o.listing, o.saveOk);
    var fetch := if res.fetched then [ListingFetch] else [];
    if res.id.None? || res.id.value == "" then
      ChartOutcome(None, res.cache, fetch)
    else
      var calls := fetch + [SeriesFetch(res.id.value)];
      assert SeriesFetch(res.id.value) in calls;
      var image := if o.series.Some? && |o.series.value| > 0 then o.series else None;
      ChartOutcome(image, res.cache, calls)
  }

  /** The chart pipeline's requests, by kind. */
  lemma PriceChartRequests(symbol: string, cache: CacheFile, o: Oracle)
    ensures var res := Resolve(symbol, cache, o.now, o.listing, o.saveOk);
            var r := PriceChart(symbol, cache, o);
            && (ListingFetch in r.effects <==> LoadCache(cache, o.now).None?)
            && (forall id :: SeriesFetch(id) in r.effects <==> res.id == Some(id) && id != "")
  {
  }

  // ---------------------------------------------------------------------------
  // Handlers
  // ---------------------------------------------------------------------------

  /** `handle_menu_choice`: the entry point. The top-five branch returns
      `None`, so the conversation does not start; an unknown text is ignored. */
  function MenuChoice(s: Session, cache: CacheFile, t: string, o: Oracle): (r: Outcome)
    requires s.state == Idle
    ensures r.cache == cache
    ensures r.session.fromSymbol == s.fromSymbol && r.session.amount == s.amount
            && r.session.toSymbol == s.toSymbol
    ensures Text.Trim(t) == LookupLabel ==> r.session.state == ChooseCoin && r.effects == [Reply(PromptCoin)]
    ensures Text.Trim(t) == ConvertLabel ==> r.session.state == ConvertFrom && r.effects == [Reply(PromptFrom)]
    ensures Text.Trim(t) == TopLabel ==>
              r.session.state == Idle && r.effects == [TopCall, Reply(TopReport(TopAnalysis(o.top))), ShowMenu]
    ensures Text.Trim(t) !in {TopLabel, LookupLabel, ConvertLabel} ==> r.session == s && r.effects == []
  {
    var t := Text.Trim(t);
    if t == TopLabel then
      Outcome(s, cache, [TopCall, Reply(TopReport(TopAnalysis(o.top))), ShowMenu])
    else if t == LookupLabel then
      Outcome(s.(state := ChooseCoin), cache, [Reply(PromptCoin)])
    else if t == ConvertLabel then
      Outcome(s.(state := ConvertFrom), cache, [Reply(PromptFrom)])
    else
      Outcome(s, cache, [])
  }

  /** `handle_convert_from`: store the upper-cased symbol and ask for the amount. */
  function ConvertFromInput(s: Session, cache: CacheFile, t: string): (r: Outcome)
    ensures r.session == s.(state := ConvertAmount, fromSymbol := Some(Text.Upper(Text.Trim(t))))
    ensures r.cache == cache && r.effects == [Reply(PromptAmount)]
  {
    Outcome(s.(state := ConvertAmount, fromSymbol := Some(Text.Upper(Text.Trim(t)))),
            cache, [Reply(PromptAmount)])
  }

  /** `handle_convert_amount`: a number is stored and the dialog asks for the
      target symbol; anything else re-prompts and stays. */
  function ConvertAmountInput(s: Session, cache: CacheFile, parsed: Option<real>): (r: Outcome)
    ensures r.cache == cache
    ensures r.session.fromSymbol == s.fromSymbol && r.session.toSymbol == s.toSymbol
    ensures parsed.None? ==> r.session == s.(state := ConvertAmount) && r.effects == [Reply(NotNumeric)]
    ensures parsed.Some? ==> r.session.state == ConvertTo && r.session.amount == parsed
                             && r.effects == [Reply(PromptTo)]
  {
    match parsed
    case None => Outcome(s.(state := ConvertAmount), cache, [Reply(NotNumeric)])
    case Some(a) => Outcome(s.(state := ConvertTo, amount := Some(a)), cache, [Reply(PromptTo)])
  }

  /** `handle_convert_to`: store the upper-cased target, call the conversion
      with the stored source symbol and amount, reply with the result or the
      failure note, show the menu and end. With a field missing the call to
      `.upper()` on `None` raises before anything is sent, and the state stays. */
  function ConvertToInput(s: Session, cache: CacheFile, t: string, converted: Option<real>): (r: Outcome)
    ensures r.cache == cache
    ensures r.session.toSymbol == Some(Text.Upper(Text.Trim(t)))
    ensures r.session.fromSymbol == s.fromSymbol && r.session.amount == s.amount
    ensures s.fromSymbol.Some? && s.amount.Some? ==>
              var to := Text.Upper(Text.Trim(t));
              && r.session.state == Idle
              && |r.effects| == 3
              && r.effects[0] == ConvertCall(s.fromSymbol.value, to, s.amount.value)
              && r.effects[1] == Reply(if converted.Some?
                                       then Converted(s.amount.value, s.fromSymbol.value, converted.value, to)
                                       else ConversionFailed)
              && r.effects[2] == ShowMenu
    ensures !(s.fromSymbol.Some? && s.amount.Some?) ==> r.session.state == s.state && r.effects == []
  {
    var to := Text.Upper(Text.Trim(t));
    var s' := s.(toSymbol := Some(to));
    match (s.fromSymbol, s.amount)
    case (Some(from), Some(amount)) =>
      var reply := match converted
        case Some(v) => Converted(amount, from, v, to)
        case None => ConversionFailed;
      Outcome(s'.(state := Idle), cache, [ConvertCall(from, to, amount), Reply(reply), ShowMenu])
    case _ => Outcome(s', cache, [])
  }

  /** `handle_coin_input`: request the analysis of the upper-cased symbol; if
      there is one, send it and attempt the chart (photo or failure note),
      otherwise send only the not-found note; always show the menu and end. */
  function CoinInput(s: Session, cache: CacheFile, t: string, o: Oracle): (r: Outcome)
    ensures r.session == s.(state := Idle)
    ensures var sym := Text.Upper(Text.Trim(t));
            var report := AnalyzeQuote(sym, o.quote);
            && |r.effects| >= 3
            && r.effects[0] == AnalysisCall(sym)
            && r.effects[|r.effects| - 1] == ShowMenu
            && (report.None? ==> r.effects == [AnalysisCall(sym), Reply(CoinNotFound), ShowMenu] && r.cache == cache)
            && (report.Some? ==> r.effects[1] == Reply(AnalysisReport(report.value))
                                 && r.effects[2] == ChartCall(sym)
                                 && r.cache == PriceChart(sym, cache, o).cache)
  {
    var sym := Text.Upper(Text.Trim(t));
    match AnalyzeQuote(sym, o.quote)
    case None => Outcome(s.(state := Idle), cache, [AnalysisCall(sym), Reply(CoinNotFound), ShowMenu])
    case Some(report) =>
      var chart := PriceChart(sym, cache, o);
      var shown := match chart.image
        case Some(points) => Photo(sym, points)
        case None => Reply(ChartFailed);
      Outcome(s.(state := Idle), chart.cache,
              [AnalysisCall(sym), Reply(AnalysisReport(report)), ChartCall(sym)]
              + chart.effects + [shown, ShowMenu])
  }

  /** With a report, the chart attempt ends in exactly one way: a photo of
      the series the chart pipeline produced, or the chart-failed note when
      it produced none. */
  lemma CoinInputChart(s: Session, cache: CacheFile, t: string, o: Oracle)
    requires AnalyzeQuote(Text.Upper(Text.Trim(t)), o.quote).Some?
    ensures var sym := Text.Upper(Text.Trim(t));
            var chart := PriceChart(sym, cache, o);
            var r := CoinInput(s, cache, t, o);
            && |r.effects| == |chart.effects| + 5
            && r.effects[3..|r.effects| - 2] == chart.effects
            && (forall ps :: Photo(sym, ps) in r.effects <==> chart.image == Some(ps))
            && (Reply(ChartFailed) in r.effects <==> chart.image.None?)
  {
    var sym := Text.Upper(Text.Trim(t));
    var report := AnalyzeQuote(sym, o.quote).value;
    var chart := PriceChart(sym, cache, o);
    var shown := match chart.image
      case Some(points) => Photo(sym, points)
      case None => Reply(ChartFailed);
    var head := [AnalysisCall(sym), Reply(AnalysisReport(report)), ChartCall(sym)];
    assert CoinInput(s, cache, t, o).effects == head + chart.effects + [shown, ShowMenu];
    ShownOnlyOnce(head, chart.effects, shown);
  }

  /** Neither a photo nor the chart-failed note is sent
      except as the one effect `shown` placed before the menu. */
  lemma ShownOnlyOnce(head: seq<Effect>, calls: seq<Effect>, shown: Effect)
    requires forall e :: e in head ==> !e.Photo? && e != Reply(ChartFailed)
    requires forall e :: e in calls ==> e.ListingFetch? || e.SeriesFetch?
    ensures forall e: Effect :: (e.Photo? || e == Reply(ChartFailed)) ==>
              (e in head + calls + [shown, ShowMenu] <==> e == shown)
    ensures var all := head + calls + [shown, ShowMenu];
            |head| == 3 ==> |all| == |calls| + 5 && all[3..|all| - 2] == calls
  {
    var all := head + calls + [shown, ShowMenu];
    if |head| == 3 {
      assert all[3..|all| - 2] == calls;
    }
  }

  // ---------------------------------------------------------------------------
  // The dispatcher
  // ---------------------------------------------------------------------------

  /** One turn. `/start` is a separate handler that never touches the state;
      `/cancel` is a fallback, consulted only while a conversation is active;
      text goes to the entry point when idle and to the state's handler
      otherwise. */
  function Step(s: Session, cache: CacheFile, input: Input, o: Oracle): (r: Outcome)
    ensures input.Start? ==> r == Outcome(s, cache, [Reply(Help), ShowMenu])
    ensures input.Cancel? ==> r.session == s.(state := Idle) && r.cache == cache
  {
    match input
    case Start => Outcome(s, cache, [Reply(Help), ShowMenu])
    case Cancel =>
      if s.state == Idle then Outcome(s, cache, [])
      else Outcome(s.(state := Idle), cache, [Reply(Cancelled), ShowMenu])
    case Typed(t) =>
      match s.state
      case Idle => MenuChoice(s, cache, t, o)
      case ChooseCoin => CoinInput(s, cache, t, o)
      case ConvertFrom => ConvertFromInput(s, cache, t)
      case ConvertAmount => ConvertAmountInput(s, cache, o.parsed)
      case ConvertTo => ConvertToInput(s, cache, t, o.converted)
  }

  /** A sequence of turns, each with its own input and oracle; the effects of
      all turns, in order. */
  function Run(s: Session, cache: CacheFile, turns: seq<(Input, Oracle)>): Outcome
    decreases |turns|
  {
    if |turns| == 0 then Outcome(s, cache, [])
    else
      var first := Step(s, cache, turns[0].0, turns[0].1);
      var rest := Run(first.session, first.cache, turns[1..]);
      Outcome(rest.session, rest.cache, first.effects + rest.effects)
  }

  // ---------------------------------------------------------------------------
  // Properties
  // ---------------------------------------------------------------------------

  /** The reachable sessions: the states after `CONVERT_FROM` have the fields
      their handlers read. */
  predicate Wf(s: Session)
  {
    && (s.state == ConvertAmount ==> s.fromSymbol.Some?)
    && (s.state == ConvertTo ==> s.fromSymbol.Some? && s.amount.Some?)
  }

  /** Number of conversion calls among the effects. */
  function ConvertCalls(effects: seq<Effect>): nat
  {
    if |effects| == 0 then 0
    else (if effects[0].ConvertCall? then 1 else 0) + ConvertCalls(effects[1..])
  }

  lemma {:induction false} ConvertCallsAppend(a: seq<Effect>, b: seq<Effect>)
    ensures ConvertCalls(a + b) == ConvertCalls(a) + ConvertCalls(b)
  {
    if |a| == 0 {
      assert a + b == b;
    } else {
      assert (a + b)[1..] == a[1..] + b;
      ConvertCallsAppend(a[1..], b);
    }
  }

  /** Every turn keeps the session well formed; so the exception branch of
      `handle_convert_to` is never taken from the initial session. */
  lemma StepPreservesWf(s: Session, cache: CacheFile, input: Input, o: Oracle)
    requires Wf(s)
    ensures Wf(Step(s, cache, input, o).session)
  {
  }

  lemma {:induction false} RunPreservesWf(s: Session, cache: CacheFile, turns: seq<(Input, Oracle)>)
    requires Wf(s)
    ensures Wf(Run(s, cache, turns).session)
    decreases |turns|
  {
    if |turns| > 0 {
      var first := Step(s, cache, turns[0].0, turns[0].1);
      StepPreservesWf(s, cache, turns[0].0, turns[0].1);
      RunPreservesWf(first.session, first.cache, turns[1..]);
    }
  }

  /** No conversion call among the effects. */
  predicate NoConversion(effects: seq<Effect>)
  {
    forall e :: e in effects ==> !e.ConvertCall?
  }

  lemma {:induction false} NoConvertCallsCountZero(effects: seq<Effect>)
    requires NoConversion(effects)
    ensures ConvertCalls(effects) == 0
  {
    if |effects| > 0 {
      assert effects[0] in effects;
      NoConvertCallsCountZero(effects[1..]);
    }
  }

  /** Text answering `CONVERT_TO` makes exactly one conversion call, first,
      with the stored source symbol, the stored amount and the upper-cased
      target, and the turn ends with the menu in `Idle`. */
  lemma ConvertToStepConverts(s: Session, cache: CacheFile, t: string, o: Oracle)
    requires Wf(s) && s.state == ConvertTo
    ensures var r := Step(s, cache, Typed(t), o);
            && |r.effects| > 0
            && r.effects[0] == ConvertCall(s.fromSymbol.value, Text.Upper(Text.Trim(t)), s.amount.value)
            && NoConversion(r.effects[1..])
            && r.session.state == Idle
            && r.effects[|r.effects| - 1] == ShowMenu
  {
    var r := Step(s, cache, Typed(t), o);
    assert r.effects[1..] == [r.effects[1], ShowMenu];
  }

  /** Every other turn makes no conversion call. */
  lemma OtherStepsDoNotConvert(s: Session, cache: CacheFile, input: Input, o: Oracle)
    requires !(s.state == ConvertTo && input.Typed?)
    ensures NoConversion(Step(s, cache, input, o).effects)
  {
    match input
    case Start =>
    case Cancel =>
    case Typed(t) =>
      match s.state
      case Idle =>
        var r := MenuChoice(s, cache, t, o);
        assert r.effects == [] || r.effects == [Reply(PromptCoin)] || r.effects == [Reply(PromptFrom)]
            || r.effects == [TopCall, Reply(TopReport(TopAnalysis(o.top))), ShowMenu];
      case ChooseCoin =>
        CoinInputMakesNoConversion(s, cache, t, o);
      case ConvertFrom =>
      case ConvertAmount =>
  }

  lemma CoinInputMakesNoConversion(s: Session, cache: CacheFile, t: string, o: Oracle)
    ensures NoConversion(CoinInput(s, cache, t, o).effects)
  {
    var sym := Text.Upper(Text.Trim(t));
    var r := CoinInput(s, cache, t, o);
    match AnalyzeQuote(sym, o.quote)
    case None =>
    case Some(report) =>
      var chart := PriceChart(sym, cache, o);
      var shown := match chart.image
        case Some(points) => Photo(sym, points)
        case None => Reply(ChartFailed);
      var head := [AnalysisCall(sym), Reply(AnalysisReport(report)), ChartCall(sym)];
      assert r.effects == head + chart.effects + [shown, ShowMenu];
      assert NoConversion(head + chart.effects + [shown, ShowMenu]);
  }

  /** A turn makes at most one conversion call, exactly one when it is text
      answering `CONVERT_TO`. */
  lemma StepConvertCalls(s: Session, cache: CacheFile, input: Input, o: Oracle)
    requires Wf(s)
    ensures ConvertCalls(Step(s, cache, input, o).effects) ==
            (if s.state == ConvertTo && input.Typed? then 1 else 0)
  {
    var effects := Step(s, cache, input, o).effects;
    if s.state == ConvertTo && input.Typed? {
      ConvertToStepConverts(s, cache, input.text, o);
      assert effects == [effects[0]] + effects[1..];
      ConvertCallsAppend([effects[0]], effects[1..]);
      NoConvertCallsCountZero(effects[1..]);
    } else {
      OtherStepsDoNotConvert(s, cache, input, o);
      NoConvertCallsCountZero(effects);
    }
  }

  /** The amount step: non-numeric text re-prompts, stays and keeps the stored
      amount; a number is stored and the dialog moves on. Either way nothing
      is converted yet. */
  lemma AmountStep(s: Session, cache: CacheFile, t: string, o: Oracle)
    requires s.state == ConvertAmount
    ensures var r := Step(s, cache, Typed(t), o);
            && ConvertCalls(r.effects) == 0
            && (o.parsed.None? ==> r.session == s && r.effects == [Reply(NotNumeric)])
            && (o.parsed.Some? ==> r.session.state == ConvertTo && r.session.amount == o.parsed
                                   && r.session.fromSymbol == s.fromSymbol
                                   && r.effects == [Reply(PromptTo)])
  {
  }

  /** Text in the idle state goes to the menu: each button selects its branch
      and any other text is ignored, with the cache and the stored fields kept. */
  lemma MenuStep(s: Session, cache: CacheFile, t: string, o: Oracle)
    requires s.state == Idle
    ensures var r := Step(s, cache, Typed(t), o);
            && r.cache == cache
            && (Text.Trim(t) == TopLabel ==>
                  r.session == s && r.effects == [TopCall, Reply(TopReport(TopAnalysis(o.top))), ShowMenu])
            && (Text.Trim(t) == LookupLabel ==>
                  r.session == s.(state := ChooseCoin) && r.effects == [Reply(PromptCoin)])
            && (Text.Trim(t) == ConvertLabel ==>
                  r.session == s.(state := ConvertFrom) && r.effects == [Reply(PromptFrom)])
            && (Text.Trim(t) !in {TopLabel, LookupLabel, ConvertLabel} ==> r.session == s && r.effects == [])
  {
  }

  /** Text in the source state always replaces the stored source symbol, even
      one left over from an earlier dialog, and asks for the amount. */
  lemma SourceStep(s: Session, cache: CacheFile, t: string, o: Oracle)
    requires s.state == ConvertFrom
    ensures Step(s, cache, Typed(t), o)
            == Outcome(s.(state := ConvertAmount, fromSymbol := Some(Text.Upper(Text.Trim(t)))), cache,
                       [Reply(PromptAmount)])
  {
  }

  /** A lookup made within the hour of a saved fetch requests no listing. */
  lemma LookupWithinHourNoListing(s: Session, cache: CacheFile, t: string, o: Oracle,
                                  t0: real, coins: seq<Coin>)
    requires s.state == ChooseCoin
    requires cache == Stored(Some(t0), Some(coins)) && o.now - t0 <= CacheExpiration
    ensures ListingFetch !in Step(s, cache, Typed(t), o).effects
  {
    CoinStepRequests(s, cache, t, o);
  }

  /** The lookup step always ends the conversation with the menu; a chart is
      attempted exactly when the analysis was found, and without an analysis
      the not-found note is the only reply. */
  lemma CoinStepChartOnlyAfterAnalysis(s: Session, cache: CacheFile, t: string, o: Oracle)
    requires s.state == ChooseCoin
    ensures var r := Step(s, cache, Typed(t), o);
            var sym := Text.Upper(Text.Trim(t));
            && r.session.state == Idle
            && r.effects[|r.effects| - 1] == ShowMenu
            && (ChartCall(sym) in r.effects <==> AnalyzeQuote(sym, o.quote).Some?)
            && (AnalyzeQuote(sym, o.quote).None? ==>
                  r.effects == [AnalysisCall(sym), Reply(CoinNotFound), ShowMenu])
            && (AnalyzeQuote(sym, o.quote).Some? && (o.series.None? || |o.series.value| == 0) ==>
                  Reply(ChartFailed) in r.effects && forall ps :: Photo(sym, ps) !in r.effects)
  {
    var r := Step(s, cache, Typed(t), o);
    var sym := Text.Upper(Text.Trim(t));
    if AnalyzeQuote(sym, o.quote).Some? {
      CoinInputChart(s, cache, t, o);
    }
    if AnalyzeQuote(sym, o.quote).None? {
      assert r.effects == [AnalysisCall(sym), Reply(CoinNotFound), ShowMenu];
      assert ChartCall(sym) !in r.effects;
    } else {
      assert r.effects[2] == ChartCall(sym);
    }
  }

  /** The lookup turn makes the chart pipeline's requests itself: the listing
      is requested exactly when there is a report and the cache misses, and
      the series exactly when there is a report and a non-empty id resolves. */
  lemma CoinStepRequests(s: Session, cache: CacheFile, t: string, o: Oracle)
    requires s.state == ChooseCoin
    ensures var r := Step(s, cache, Typed(t), o);
            var sym := Text.Upper(Text.Trim(t));
            var res := Resolve(sym, cache, o.now, o.listing, o.saveOk);
            && (ListingFetch in r.effects <==> AnalyzeQuote(sym, o.quote).Some? && LoadCache(cache, o.now).None?)
            && (forall id :: SeriesFetch(id) in r.effects <==>
                  AnalyzeQuote(sym, o.quote).Some? && res.id == Some(id) && id != "")
  {
    assert Step(s, cache, Typed(t), o) == CoinInput(s, cache, t, o);
    CoinInputRequests(s, cache, t, o);
  }

  lemma CoinInputRequests(s: Session, cache: CacheFile, t: string, o: Oracle)
    ensures var r := CoinInput(s, cache, t, o);
            var sym := Text.Upper(Text.Trim(t));
            var res := Resolve(sym, cache, o.now, o.listing, o.saveOk);
            && (ListingFetch in r.effects <==> AnalyzeQuote(sym, o.quote).Some? && LoadCache(cache, o.now).None?)
            && (forall id :: SeriesFetch(id) in r.effects <==>
                  AnalyzeQuote(sym, o.quote).Some? && res.id == Some(id) && id != "")
  {
    var sym := Text.Upper(Text.Trim(t));
    var r := CoinInput(s, cache, t, o);
    if AnalyzeQuote(sym, o.quote).Some? {
      var chart := PriceChart(sym, cache, o);
      CoinInputChart(s, cache, t, o);
      RequestsAmongEffects(r.effects, chart.effects);
      PriceChartRequests(sym, cache, o);
    } else {
      assert r.effects == [AnalysisCall(sym), Reply(CoinNotFound), ShowMenu];
    }
  }

  /** Requests are found in a turn's effects exactly where the chart pipeline
      placed them, given that the rest of the turn makes none. */
  lemma RequestsAmongEffects(effects: seq<Effect>, calls: seq<Effect>)
    requires |effects| == |calls| + 5 && effects[3..|effects| - 2] == calls
    requires forall i :: 0 <= i < 3 ==> !effects[i].ListingFetch? && !effects[i].SeriesFetch?
    requires forall i :: |effects| - 2 <= i < |effects| ==> !effects[i].ListingFetch? && !effects[i].SeriesFetch?
    ensures forall e: Effect :: (e.ListingFetch? || e.SeriesFetch?) ==> (e in effects <==> e in calls)
  {
    assert effects == effects[..3] + calls + effects[|effects| - 2..];
  }

  /** An active conversation continues after `/start` where it was: the amount
      typed after a `/start` in the amount state is still taken as the amount. */
  lemma StartKeepsSession(s: Session, cache: CacheFile, o: Oracle, o2: Oracle, t: string)
    ensures s.state == ConvertAmount && o2.parsed.Some? ==>
              var r := Run(s, cache, [(Start, o), (Typed(t), o2)]);
              r.session.state == ConvertTo && r.session.amount == o2.parsed
  {
    if s.state == ConvertAmount && o2.parsed.Some? {
      var turns := [(Start, o), (Typed(t), o2)];
      assert turns[1..] == [(Typed(t), o2)];
      assert [(Typed(t), o2)][1..] == [];
      var second := Step(s, cache, Typed(t), o2);
      assert second.session.state == ConvertTo && second.session.amount == o2.parsed;
      assert Run(s, cache, [(Typed(t), o2)]).session == second.session;
      assert Run(s, cache, turns).session == Run(s, cache, [(Typed(t), o2)]).session;
    }
  }

  /** `/cancel` ends any active conversation with a reply and the menu; when no
      conversation is active it is not handled at all. The stored fields stay. */
  lemma CancelEnds(s: Session, cache: CacheFile, o: Oracle)
    ensures var r := Step(s, cache, Cancel, o);
            && r.session == s.(state := Idle)
            && r.cache == cache
            && (s.state != Idle ==> r.effects == [Reply(Cancelled), ShowMenu])
            && (s.state == Idle ==> r.effects == [])
  {
  }

  /** The cache changes only in a turn answering the lookup state. */
  lemma CacheChangesOnlyInLookup(s: Session, cache: CacheFile, input: Input, o: Oracle)
    requires !(s.state == ChooseCoin && input.Typed?)
    ensures Step(s, cache, input, o).cache == cache
  {
  }

  /** A convert dialog, with the typed texts as
      parameters: the menu button, the source symbol, a non-numeric entry,
      a numeric entry that parses to `a`, and the target symbol. */
  function ConvertDialog(menu: string, from: string, junk: string, num: string, to: string,
                         a: real, o: Oracle): seq<(Input, Oracle)>
  {
    [(Typed(menu), o), (Typed(from), o), (Typed(junk), o.(parsed := None)),
     (Typed(num), o.(parsed := Some(a))), (Typed(to), o)]
  }

  /** The effects of the turn that names the target currency. */
  function ConversionEffects(f: string, t: string, a: real, o: Oracle): seq<Effect>
  {
    [ConvertCall(f, t, a),
     Reply(if o.converted.Some? then Converted(a, f, o.converted.value, t) else ConversionFailed),
     ShowMenu]
  }

  lemma ConvertDialogOpens(cache: CacheFile, o: Oracle, menu: string)
    requires Text.Trim(menu) == ConvertLabel
    ensures Step(InitialSession, cache, Typed(menu), o)
            == Outcome(Session(ConvertFrom, None, None, None), cache, [Reply(PromptFrom)])
  {
  }

  lemma ConvertDialogSourceStep(cache: CacheFile, o: Oracle, from: string)
    ensures Step(Session(ConvertFrom, None, None, None), cache, Typed(from), o)
            == Outcome(Session(ConvertAmount, Some(Text.Upper(Text.Trim(from))), None, None), cache,
                       [Reply(PromptAmount)])
  {
  }

  lemma ConvertDialogJunkStep(cache: CacheFile, o: Oracle, f: string, junk: string)
    ensures Step(Session(ConvertAmount, Some(f), None, None), cache, Typed(junk), o.(parsed := None))
            == Outcome(Session(ConvertAmount, Some(f), None, None), cache, [Reply(NotNumeric)])
  {
  }

  lemma ConvertDialogAmountStep(cache: CacheFile, o: Oracle, f: string, num: string, a: real)
    ensures Step(Session(ConvertAmount, Some(f), None, None), cache, Typed(num), o.(parsed := Some(a)))
            == Outcome(Session(ConvertTo, Some(f), Some(a), None), cache, [Reply(PromptTo)])
  {
  }

  lemma ConvertDialogTargetStep(cache: CacheFile, o: Oracle, f: string, a: real, to: string)
    ensures var t := Text.Upper(Text.Trim(to));
            Step(Session(ConvertTo, Some(f), Some(a), None), cache, Typed(to), o)
            == Outcome(Session(Idle, Some(f), Some(a), Some(t)), cache, ConversionEffects(f, t, a, o))
  {
  }

  /** The last turn of the dialog, on its own. */
  lemma ConvertDialogLastTurn(cache: CacheFile, o: Oracle, f: string, a: real, to: string)
    ensures var t := Text.Upper(Text.Trim(to));
            Run(Session(ConvertTo, Some(f), Some(a), None), cache, [(Typed(to), o)])
            == Outcome(Session(Idle, Some(f), Some(a), Some(t)), cache, ConversionEffects(f, t, a, o))
  {
    ConvertDialogTargetStep(cache, o, f, a, to);
    assert [(Typed(to), o)][1..] == [];
  }

  /** The last two turns: the number, then the target. */
  lemma ConvertDialogLastTwo(cache: CacheFile, o: Oracle, f: string, num: string, to: string, a: real)
    ensures var t := Text.Upper(Text.Trim(to));
            Run(Session(ConvertAmount, Some(f), None, None), cache,
                [(Typed(num), o.(parsed := Some(a))), (Typed(to), o)])
            == Outcome(Session(Idle, Some(f), Some(a), Some(t)), cache,
                       [Reply(PromptTo)] + ConversionEffects(f, t, a, o))
  {
    ConvertDialogAmountStep(cache, o, f, num, a);
    ConvertDialogLastTurn(cache, o, f, a, to);
    assert [(Typed(num), o.(parsed := Some(a))), (Typed(to), o)][1..] == [(Typed(to), o)];
  }

  /** The last three turns: the non-numeric entry, the number, the target. */
  lemma ConvertDialogLastThree(cache: CacheFile, o: Oracle, f: string, junk: string, num: string,
                               to: string, a: real)
    ensures var t := Text.Upper(Text.Trim(to));
            Run(Session(ConvertAmount, Some(f), None, None), cache,
                [(Typed(junk), o.(parsed := None)), (Typed(num), o.(parsed := Some(a))), (Typed(to), o)])
            == Outcome(Session(Idle, Some(f), Some(a), Some(t)), cache,
                       [Reply(NotNumeric)] + ([Reply(PromptTo)] + ConversionEffects(f, t, a, o)))
  {
    ConvertDialogJunkStep(cache, o, f, junk);
    ConvertDialogLastTwo(cache, o, f, num, to, a);
    assert [(Typed(junk), o.(parsed := None)), (Typed(num), o.(parsed := Some(a))), (Typed(to), o)][1..]
           == [(Typed(num), o.(parsed := Some(a))), (Typed(to), o)];
  }

  /** Every turn after the menu choice. */
  lemma ConvertDialogAfterMenu(cache: CacheFile, o: Oracle, menu: string, from: string, junk: string,
                               num: string, to: string, a: real)
    ensures var f := Text.Upper(Text.Trim(from));
            var t := Text.Upper(Text.Trim(to));
            Run(Session(ConvertFrom, None, None, None), cache, ConvertDialog(menu, from, junk, num, to, a, o)[1..])
            == Outcome(Session(Idle, Some(f), Some(a), Some(t)), cache,
                       [Reply(PromptAmount)] + ([Reply(NotNumeric)] + ([Reply(PromptTo)] + ConversionEffects(f, t, a, o))))
  {
    var turns := ConvertDialog(menu, from, junk, num, to, a, o);
    ConvertDialogSourceStep(cache, o, from);
    ConvertDialogLastThree(cache, o, Text.Upper(Text.Trim(from)), junk, num, to, a);
    assert turns[1..][1..] == [(Typed(junk), o.(parsed := None)), (Typed(num), o.(parsed := Some(a))), (Typed(to), o)];
  }

  /** The convert dialog makes exactly one conversion call, with the
      normalised source symbol, the parsed amount and the normalised target,
      re-prompts once for the non-numeric entry, and returns to `Idle`. */
  lemma ConvertScenario(cache: CacheFile, o: Oracle, menu: string, from: string, junk: string,
                        num: string, to: string, a: real)
    requires Text.Trim(menu) == ConvertLabel
    ensures var r := Run(InitialSession, cache, ConvertDialog(menu, from, junk, num, to, a, o));
            && r.session.state == Idle
            && r.cache == cache
            && ConvertCalls(r.effects) == 1
            && |r.effects| == 7
            && r.effects[2] == Reply(NotNumeric)
            && r.effects[4] == ConvertCall(Text.Upper(Text.Trim(from)), Text.Upper(Text.Trim(to)), a)
            && r.effects == [Reply(PromptFrom), Reply(PromptAmount), Reply(NotNumeric), Reply(PromptTo)]
                            + ConversionEffects(Text.Upper(Text.Trim(from)), Text.Upper(Text.Trim(to)), a, o)
  {
    var f := Text.Upper(Text.Trim(from));
    var t := Text.Upper(Text.Trim(to));
    var last := ConversionEffects(f, t, a, o);
    ConvertDialogOpens(cache, o, menu);
    ConvertDialogAfterMenu(cache, o, menu, from, junk, num, to, a);
    assert Run(InitialSession, cache, ConvertDialog(menu, from, junk, num, to, a, o))
           == Outcome(Session(Idle, Some(f), Some(a), Some(t)), cache, DialogEffects(last));
    DialogEffectsCount(last);
  }

  /** The replies of the first four turns of the convert dialog, followed by the last turn's effects. */
  function DialogEffects(last: seq<Effect>): seq<Effect>
  {
    [Reply(PromptFrom)] + ([Reply(PromptAmount)] + ([Reply(NotNumeric)] + ([Reply(PromptTo)] + last)))
  }

  lemma DialogEffectsCount(last: seq<Effect>)
    requires |last| == 3 && last[0].ConvertCall? && !last[1].ConvertCall? && !last[2].ConvertCall?
    ensures var all := DialogEffects(last);
            && |all| == 7 && all[2] == Reply(NotNumeric) && all[4] == last[0] && ConvertCalls(all) == 1
            && all == [Reply(PromptFrom), Reply(PromptAmount), Reply(NotNumeric), Reply(PromptTo)] + last
  {
    var prefix := [Reply(PromptFrom), Reply(PromptAmount), Reply(NotNumeric), Reply(PromptTo)];
    assert DialogEffects(last) == prefix + last;
    NoConvertCallsCountZero(prefix);
    NoConvertCallsCountZero(last[1..]);
    assert last == [last[0]] + last[1..];
    ConvertCallsAppend([last[0]], last[1..]);
    ConvertCallsAppend(prefix, last);
  }

  /** The convert button is already stripped, so pressing it selects it. */
  lemma ConvertLabelStripped()
    ensures Text.Trim(ConvertLabel) == ConvertLabel
  {
    Text.TrimUnpadded(ConvertLabel);
  }

  /** The symbols of the concrete run, after stripping and upper-casing. */
  lemma ExampleSymbols()
    ensures Text.Upper(Text.Trim("btc")) == "BTC"
    ensures Text.Upper(Text.Trim("USDT")) == "USDT"
  {
    Text.TrimUnpadded("btc");
    Text.TrimUnpadded("USDT");
    assert Text.Upper("btc") == "BTC";
    Text.UpperKeepsOthers("USDT");
  }

  /** A concrete run: the Convert button, "btc", "abc", "10",
      "USDT" converts 10 BTC to USDT, once. */
  lemma ConvertScenarioExample(cache: CacheFile, o: Oracle)
    ensures var r := Run(InitialSession, cache, ConvertDialog(ConvertLabel, "btc", "abc", "10", "USDT", 10.0, o));
            && r.session.state == Idle
            && ConvertCalls(r.effects) == 1
            && |r.effects| == 7
            && r.effects[4] == ConvertCall("BTC", "USDT", 10.0)
  {
    ConvertLabelStripped();
    ExampleSymbols();
    ConvertScenario(cache, o, ConvertLabel, "btc", "abc", "10", "USDT", 10.0);
  }
}

=== FILE: resolver.dfy ===
/** Resolution of a ticker symbol to a CoinGecko id through a one-hour file
    cache of the full coin listing (`load_cache`, `save_cache`,
    `get_coingecko_id`). The cache file is a value, the clock is the parameter
    `now`, and the listing request is an oracle `Option<seq<Coin>>` (`None`
    for a non-200 status). */
module Resolver {
  import opened Wrappers
  import Text

  /** One entry of the CoinGecko coin list. */
  datatype Coin = Coin(id: string, symbol: string)

  /** What `load_cache` can find on disk: no file, a file that cannot be read
      or parsed, or a JSON object whose two keys may each be missing. */
  datatype CacheFile =
    | NoFile
    | Unreadable
    | Stored(timestamp: Option<real>, coins: Option<seq<Coin>>)

  /** Seconds a saved listing stays usable. */
  const CacheExpiration: real := 3600.0

  /** `time.time() - data.get("timestamp", 0) > CACHE_EXPIRATION` is false. */
  predicate Unexpired(timestamp: Option<real>, now: real)
  {
    now - timestamp.GetOr(0.0) <= CacheExpiration
  }

  /** `load_cache`: the stored listing while it is at most an hour old, `None` otherwise. */
  function LoadCache(f: CacheFile, now: real): (r: Option<seq<Coin>>)
    ensures r.Some? <==> f.Stored? && f.coins.Some? && now - f.timestamp.GetOr(0.0) <= 3600.0
    ensures r.Some? ==> r.value == f.coins.value
  {
    match f
    case NoFile => None
    case Unreadable => None
    case Stored(ts, coins) => if !Unexpired(ts, now) then None else coins
  }

  /** The expiry boundary: a listing saved exactly an hour ago is still used,
      one saved longer ago is not, and a file without a timestamp counts as
      saved at time 0. */
  lemma CacheBoundary(t: real, coins: seq<Coin>, now: real)
    ensures LoadCache(Stored(Some(t), Some(coins)), t + 3600.0) == Some(coins)
    ensures now > t + 3600.0 ==> LoadCache(Stored(Some(t), Some(coins)), now) == None
    ensures LoadCache(Stored(None, Some(coins)), now) == LoadCache(Stored(Some(0.0), Some(coins)), now)
  {
  }

  /** The comparison in the lookup loop. */
  predicate SymbolMatches(c: Coin, symbol: string)
  {
    Text.Upper(c.symbol) == Text.Upper(symbol)
  }

  /** `i` is the first position whose symbol matches. */
  ghost predicate FirstMatch(coins: seq<Coin>, symbol: string, i: int)
  {
    && 0 <= i < |coins|
    && SymbolMatches(coins[i], symbol)
    && forall j :: 0 <= j < i ==> !SymbolMatches(coins[j], symbol)
  }

  /** The `for coin in coins` loop: the id of the first coin whose upper-cased
      symbol equals the upper-cased query, `None` when no coin matches. */
  function Lookup(coins: seq<Coin>, symbol: string): (r: Option<string>)
    ensures r.None? <==> forall i :: 0 <= i < |coins| ==> !SymbolMatches(coins[i], symbol)
    ensures r.Some? ==> exists i :: FirstMatch(coins, symbol, i) && r.value == coins[i].id
  {
    if |coins| == 0 then None
    else if SymbolMatches(coins[0], symbol) then
      assert FirstMatch(coins, symbol, 0);
      Some(coins[0].id)
    else
      var r := Lookup(coins[1..], symbol);
      assert forall i :: 1 <= i < |coins| ==> coins[i] == coins[1..][i - 1];
      if r.Some? then
        assert exists i :: FirstMatch(coins, symbol, i) && r.value == coins[i].id by {
          var i :| FirstMatch(coins[1..], symbol, i) && r.value == coins[1..][i].id;
          assert FirstMatch(coins, symbol, i + 1);
        }
        r
      else r
  }

  /** There is only one first match, so `Lookup` is determined by it. */
  lemma LookupIsFirstMatch(coins: seq<Coin>, symbol: string, i: int)
    requires FirstMatch(coins, symbol, i)
    ensures Lookup(coins, symbol) == Some(coins[i].id)
  {
    var r := Lookup(coins, symbol);
    var k :| FirstMatch(coins, symbol, k) && r.value == coins[k].id;
    assert k == i;
  }

  /** The lookup is case-insensitive: upper-casing the query changes nothing. */
  lemma {:induction false} LookupCaseInsensitive(coins: seq<Coin>, symbol: string)
    ensures Lookup(coins, symbol) == Lookup(coins, Text.Upper(symbol))
  {
    Text.UpperIsCanonical(symbol);
    if |coins| > 0 {
      assert SymbolMatches(coins[0], symbol) == SymbolMatches(coins[0], Text.Upper(symbol));
      LookupCaseInsensitive(coins[1..], symbol);
    }
  }

  /** The outcome of `get_coingecko_id`: the id found, the cache file
      afterwards, and whether the listing endpoint was requested. */
  datatype Resolution = Resolution(id: Option<string>, cache: CacheFile, fetched: bool)

  /** `get_coingecko_id`: use the cached listing if it is unexpired; otherwise
      request the listing, give up with `None` on a non-200 status, and save the
      fetched listing (stamped `now`) before searching it. A failed save
      (`saveOk` false) is treated as leaving the file as it was; a file the
      failed write truncated would be unreadable, which is also a miss. */
  function Resolve(symbol: string, cache: CacheFile, now: real,
                   listing: Option<seq<Coin>>, saveOk: bool): (r: Resolution)
    ensures r.fetched <==> LoadCache(cache, now).None?
    ensures !r.fetched ==> r.cache == cache && r.id == Lookup(LoadCache(cache, now).value, symbol)
    ensures r.fetched && listing.None? ==> r.id.None? && r.cache == cache
    ensures r.fetched && listing.Some? ==>
              r.id == Lookup(listing.value, symbol)
              && (saveOk ==> r.cache == Stored(Some(now), Some(listing.value)))
              && (!saveOk ==> r.cache == cache)
  {
    match LoadCache(cache, now)
    case Some(coins) => Resolution(Lookup(coins, symbol), cache, false)
    case None =>
      match listing
      case None => Resolution(None, cache, true)
      case Some(coins) =>
        var saved := if saveOk then Stored(Some(now), Some(coins)) else cache;
        Resolution(Lookup(coins, symbol), saved, true)
  }

  /** A second resolution at most an hour after a successful fetch-and-save
      does not request the listing again and searches the saved list; one made
      later than that requests it exactly once more. */
  lemma ResolveWithinHourUsesCache(s1: string, s2: string, cache: CacheFile, t0: real, t1: real,
                                   listing: seq<Coin>, listing2: Option<seq<Coin>>, saveOk2: bool)
    requires Resolve(s1, cache, t0, Some(listing), true).fetched
    ensures var c := Resolve(s1, cache, t0, Some(listing), true).cache;
            var r2 := Resolve(s2, c, t1, listing2, saveOk2);
            (t1 - t0 <= CacheExpiration ==> !r2.fetched && r2.id == Lookup(listing, s2) && r2.cache == c)
            && (t1 - t0 > CacheExpiration ==> r2.fetched)
  {
  }

  /** Resolving a symbol and resolving its upper-cased form give the same id and
      leave the same cache. */
  lemma ResolveCaseInsensitive(symbol: string, cache: CacheFile, now: real,
                               listing: Option<seq<Coin>>, saveOk: bool)
    ensures Resolve(symbol, cache, now, listing, saveOk) ==
            Resolve(Text.Upper(symbol), cache, now, listing, saveOk)
  {
    match LoadCache(cache, now)
    case Some(coins) => LookupCaseInsensitive(coins, symbol);
    case None =>
      if listing.Some? {
        LookupCaseInsensitive(listing.value, symbol);
      }
  }
}

=== FILE: text.dfy ===
/** The two string operations every handler applies to user input:
    `str.strip()` and `str.upper()`, both restricted to ASCII. */
module Text {

  /** The ASCII characters that Python's `str.isspace` accepts: tab, line feed,
      vertical tab, form feed, carriage return, the four separators 0x1C-0x1F
      and the space. */
  predicate IsSpace(c: char)
  {
    ('\t' <= c <= '\r') || ('\U{1C}' <= c <= '\U{1F}') || c == ' '
  }

  /** Removes leading whitespace. */
  function TrimStart(s: string): string
    decreases |s|
  {
    if |s| > 0 && IsSpace(s[0]) then TrimStart(s[1..]) else s
  }

  /** `TrimStart` keeps a suffix, drops only whitespace, and the suffix does
      not start with whitespace. */
  lemma {:induction false} TrimStartSpec(s: string)
    ensures var r := TrimStart(s);
            && |r| <= |s| && r == s[|s| - |r|..]
            && (forall i :: 0 <= i < |s| - |r| ==> IsSpace(s[i]))
            && (|r| == 0 || !IsSpace(r[0]))
    decreases |s|
  {
    if |s| > 0 && IsSpace(s[0]) {
      TrimStartSpec(s[1..]);
      var r := TrimStart(s);
      assert forall i :: 1 <= i < |s| - |r| ==> s[i] == s[1..][i - 1];
    }
  }

  /** Removes trailing whitespace. */
  function TrimEnd(s: string): string
    decreases |s|
  {
    if |s| > 0 && IsSpace(s[|s| - 1]) then TrimEnd(s[..|s| - 1]) else s
  }

  /** `TrimEnd` keeps a prefix, drops only whitespace, and the prefix does not
      end with whitespace. */
  lemma {:induction false} TrimEndSpec(s: string)
    ensures var r := TrimEnd(s);
            && |r| <= |s| && r == s[..|r|]
            && (forall i :: |r| <= i < |s| ==> IsSpace(s[i]))
            && (|r| == 0 || !IsSpace(r[|r| - 1]))
    decreases |s|
  {
    if |s| > 0 && IsSpace(s[|s| - 1]) {
      TrimEndSpec(s[..|s| - 1]);
    }
  }

  /** `r` is the infix of `s` starting at `k`, and everything outside it is whitespace. */
  ghost predicate StrippedInfix(s: string, k: int, r: string)
  {
    && 0 <= k && k + |r| <= |s| && r == s[k..k + |r|]
    && (forall i :: 0 <= i < k ==> IsSpace(s[i]))
    && (forall i :: k + |r| <= i < |s| ==> IsSpace(s[i]))
  }

  /** Python's `s.strip()`. */
  function Trim(s: string): string
  {
    TrimEnd(TrimStart(s))
  }

  /** `Trim` keeps the infix of `s` that neither starts nor ends with
      whitespace, and everything it cuts off on either side is whitespace. */
  lemma TrimSpec(s: string)
    ensures exists k :: StrippedInfix(s, k, Trim(s))
    ensures var r := Trim(s); |r| == 0 || (!IsSpace(r[0]) && !IsSpace(r[|r| - 1]))
  {
    var a := TrimStart(s);
    var r := TrimEnd(a);
    var k := |s| - |a|;
    TrimStartSpec(s);
    TrimEndSpec(a);
    assert r == Trim(s);
    assert r == s[k..k + |r|];
    assert forall i :: k + |r| <= i < |s| ==> s[i] == a[i - k];
    assert StrippedInfix(s, k, r);
  }

  /** Stripping an already stripped string changes nothing. */
  lemma TrimIdempotent(s: string)
    ensures Trim(Trim(s)) == Trim(s)
  {
    var t := Trim(s);
    TrimSpec(s);
    TrimUnpadded(t);
  }

  /** A string with no whitespace at either end is its own `Trim`. */
  lemma TrimUnpadded(s: string)
    requires |s| == 0 || (!IsSpace(s[0]) && !IsSpace(s[|s| - 1]))
    ensures Trim(s) == s
  {
    assert TrimStart(s) == s;
  }

  /** ASCII case mapping of one character. */
  function UpperChar(c: char): char
  {
    if 'a' <= c <= 'z' then (c as int - 32) as char else c
  }

  /** Python's `s.upper()`, restricted to ASCII letters. */
  function Upper(s: string): string
  {
    if |s| == 0 then [] else [UpperChar(s[0])] + Upper(s[1..])
  }

  /** Upper-casing maps every character on its own and keeps the length. */
  lemma {:induction false} UpperSpec(s: string)
    ensures |Upper(s)| == |s|
    ensures forall i :: 0 <= i < |s| ==> Upper(s)[i] == UpperChar(s[i])
  {
    if |s| > 0 {
      UpperSpec(s[1..]);
      assert forall i :: 1 <= i < |s| ==> Upper(s)[i] == Upper(s[1..])[i - 1];
    }
  }

  /** After upper-casing, no ASCII lower-case letter is left, and upper-casing
      again changes nothing. */
  lemma UpperIsCanonical(s: string)
    ensures forall i :: 0 <= i < |Upper(s)| ==> !('a' <= Upper(s)[i] <= 'z')
    ensures Upper(Upper(s)) == Upper(s)
  {
    UpperSpec(s);
    UpperSpec(Upper(s));
  }

  /** Upper-casing preserves every character other than the 26 lower-case letters. */
  lemma UpperKeepsOthers(s: string)
    requires forall i :: 0 <= i < |s| ==> !('a' <= s[i] <= 'z')
    ensures Upper(s) == s
  {
    UpperSpec(s);
  }
}

=== FILE: wrappers.dfy ===
/** The optional-value datatype used wherever the bot reads something that may
    be absent: a JSON field, an HTTP body, a cached list, a parsed number. */
module Wrappers {

  datatype Option<+T> = None | Some(value: T) {

    /** The encapsulated value, or `default` when absent (Python's `dict.get(key, default)`). */
    function GetOr(default: T): T
    {
      match this
      case Some(v) => v
      case None => default
    }
  }
}
